=== FILE: README.md ===
# mini_bookmark in Dafny

This project models the core of mini_bookmark, a small bookmarking service.
A Flask server exposes four routes:

- `/` serves the page (`index.html`) that loads the page script.
- `/fetch` takes a URL, consults the site's robots.txt policy, renders the
  page in a headless browser, and returns a JSON summary of it.
- `/save` appends a posted bookmark to a JSON file.
- `/bookmarks` lists the stored bookmarks.

A page script (`static/script.js`) posts the URL, copies the title and
summary it gets back onto two buttons, and offers the result as a text
file for download.

The model follows the code's structure, one module per concern:

| module | file | models |
|---|---|---|
| `Wrappers` | wrappers.dfy | `Option` and `Result`; an exception becomes `Err(str(e))` |
| `Text` | text.dfy | `str.split(sep, 1)` and `str.strip()` |
| `Html` | html.dfy | the parsed document as the server queries it, and `soup.find('meta', …)` |
| `Robots` | robots.dfy | the derivation of the robots.txt URL (app.py:37) |
| `Parse` | parse.dfy | `parse_content` and `extract_links` (app.py:76-127) |
| `Fetch` | fetch.dfy | the `/fetch` handler (app.py:32-50), including its error responses |
| `Bookmarks` | bookmarks.dfy | `/save`, `load_bookmarks` and `save_bookmarks` (app.py:52-58, 111-119) |
| `Client` | client.dfy | the page script's fallbacks, download body and download file name |

Code the model cannot see becomes a function-valued parameter. This covers:

- the robots.txt parser (`rp.fetch` followed by `rp.is_allowed`);
- the Playwright render;
- BeautifulSoup;
- readability;
- the trained classifier;
- `urljoin`.

The robots.txt parser, the render, readability and `urljoin` may fail, and an `Err` carries the exception's message. `urljoin` fails, for example, on a reference with a malformed bracketed host. BeautifulSoup and the classifier are modelled as never failing (see "## Left out").

Two exceptions raised by the handler's own code are modelled with their exact messages:

- `url.split('//', 1)[1]` on a URL without "//" raises an IndexError, whose message is "list index out of range".
- `tag['content']` on a meta tag without that attribute raises a KeyError, whose message is "'content'".

The handler's effects (policy check, render, parse) are recorded in a call
trace. The contracts use the trace to state what happens before what.

Facts of the code that the model keeps:

- The code neither de-duplicates nor caps links.
- The content type is whatever the classifier returns.
- The code computes no thumbnail.
- A failure while fetching or parsing robots.txt yields a 400 response, not a permissive default.
- The policy question is `rp.is_allowed(url, '*')` (app.py:39). The parser's `is_allowed` takes the user agent first and the URL second. So the code asks about the path '*' for a user agent named after the posted URL, not about the posted URL's path. A rule such as `Disallow: /private/` does not, through this call, deny `https://example.com/private/x`. The model keeps the policy as an opaque answer about (robots.txt URL, posted URL), so every contract holds whatever that answer is. The `PolicyCheck` trace entry records the posted URL in the position the code passes it, as the user agent.
- The server's JSON never carries a `summary` key. As a result the page always shows 'No summary available', and every saved or downloaded summary is that text (`Client.FetchedView`).

## Model

| member | source | states |
|---|---|---|
| Text.SplitOnce | app.py:37 | `split(sep, 1)` gives one piece exactly when `sep` does not occur; otherwise the two pieces around its first occurrence, which rebuild the input |
| Text.StripFrames | app.py:126 | `strip()` keeps a contiguous middle of the text that starts and ends with a non-space, and everything cut off is whitespace (Python's `isspace`) |
| Html.FindMeta | app.py:85-92 | `soup.find('meta', {attr: value})` finds nothing exactly when no meta tag has that attribute value; otherwise it finds the first such tag |
| Robots.RobotsUrl | app.py:37 | a URL without "//" raises IndexError ("list index out of range"), and only such a URL does; otherwise the result ends in "/robots.txt" |
| Robots.RobotsUrlShape | app.py:37 | the result is exactly the text before the first "//", then "//", then the host segment up to the next "/", then "/robots.txt" |
| Robots.RobotsUrlOfParts | app.py:37 | for scheme + "//" + host + path, the policy document sits at the root of that host, whatever the path |
| Robots.RobotsUrlFixpoint | app.py:37 | deriving the policy URL of a derived policy URL gives the same URL |
| Robots.RobotsUrlExample | app.py:37 | "https://example.com/private/x" maps to "https://example.com/robots.txt" |
| Parse.MetadataMap | app.py:84-96 | the dictionary always holds author, description and keywords, defaulting to ''; og_title and og_description appear only when found; no other key is present |
| Parse.MetadataFails | app.py:85-96 | building the metadata raises exactly when one of the five lookups finds a tag that lacks `content` |
| Parse.MetadataDefaults | app.py:85-87 | author, description and keywords hold the first matching tag's content, or '' when no tag matches |
| Parse.MetadataOpenGraph | app.py:91-96 | og_title and og_description are present exactly when their property tags exist, and then hold the first such tag's content |
| Text.StripEnds | app.py:126 | what `strip()` leaves is empty or starts and ends with a non-space (Python's `isspace`) |
| Text.Strip | app.py:126 | `strip()` never lengthens its input; Text.StripFrames states what it keeps |
| Parse.MetaContentSpec | app.py:85-96 | one lookup with `soup.find` then `['content']`: it raises exactly when the first matching tag lacks `content`; it finds nothing exactly when no tag matches; otherwise it gives the first match's content |
| Parse.Metadata | app.py:84-96 | it raises only the KeyError "'content'"; on success author, description and keywords are always keys, and no key outside the five is present |
| Parse.FindAllHref | app.py:123 | `find_all('a', href=True)` yields only anchors that carry `href`, no more than there are anchors; FindAllHrefAt and FindAllHrefSource place each one at its rank |
| Parse.FindAllHrefAt | app.py:123 | each anchor with `href` is found at its rank, the number of earlier anchors with `href` |
| Parse.FindAllHrefSource | app.py:123 | each found anchor is an anchor with `href` whose rank is its position |
| Parse.JoinLinks | app.py:122-127 | the loop succeeds exactly when every pass succeeds, giving one entry per found anchor, in order; otherwise it raises the first failing pass's exception |
| Parse.ExtractLinks | app.py:121-127 | on success there is one entry per anchor carrying `href`. The entry's place and content are stated through ExtractLinksPositions and ExtractLinksSource |
| Parse.ExtractLinksFails | app.py:121-127 | link extraction raises exactly when `urljoin` rejects some anchor's `href`, and then with the exception for the first such anchor in document order |
| Parse.ExtractLinksPositions | app.py:121-127 | the list has one entry per anchor with `href`; the entry for anchor j sits at position (number of earlier anchors with `href`) and is built from that anchor, so document order is kept |
| Parse.ExtractLinksSource | app.py:121-127 | every entry comes from an anchor with `href` whose rank is the entry's position, so nothing is invented |
| Parse.ExtractLinksKeepsDuplicates | app.py:121-127 | two identical anchors give two identical entries, so duplicates are not removed |
| Parse.ParseContent | app.py:76-109 | parsing fails exactly when readability, a metadata lookup or `urljoin` raises, carrying the first exception in that order. On success: the url is the request's url; the title is '' without a title tag and the tag's string (possibly None) otherwise; the main content is readability's; the content type classifies "title main_content"; the metadata and links are those above |
| Fetch.HandleFetch | app.py:32-50 | a URL without "//" gives 400 with the IndexError message and no calls. Otherwise the policy check comes first, the render second (only if allowed), and the parse third (only if rendered). Errors are 400 or 403, and 403 occurs exactly when the policy disallows. A JSON response follows all three calls and echoes the url |
| Fetch.DeniedBeforeFetch | app.py:37-40 | a disallowing policy gives 403 with "Access to this URL is not allowed by robots.txt", and the trace holds only the policy check, with no render and no parse |
| Fetch.DeniedIgnoresFetch | app.py:39-47 | when the policy disallows, the renderer and the parsing libraries cannot influence the exchange |
| Fetch.MissingContentIsBadRequest | app.py:47-50 | an allowed, rendered page whose main content is extracted without error, and on which any of the five meta lookups (app.py:85-96) finds a tag without `content`, gives 400 with "'content'" |
| Fetch.AllowedFetchAnswers | app.py:36-48 | an allowed URL whose page renders and parses is answered with exactly the parsed page, after check, render and parse |
| Fetch.FailedStepIsBadRequest | app.py:38-50 | a policy error, a render error or a parse error each gives 400 with that step's message, after exactly the steps taken so far |
| Fetch.SuccessfulFetch | app.py:36-48 | a JSON response implies the policy allowed the URL, the render succeeded, the trace is check, render, parse, and the content is `parse_content` of the rendered HTML |
| Bookmarks.LoadBookmarks | app.py:111-115 | no file means the empty list; an existing file gives the stored list |
| Bookmarks.SaveBookmark | app.py:52-58 | after a save the file exists and the list is one longer: the old list unchanged as a prefix, then the posted bookmark; the reply is "Bookmark saved successfully" |
| Bookmarks.SaveAllAppends | app.py:52-58 | a run of saves stores the earlier bookmarks followed by the posted ones in posting order, with none dropped or merged |
| Client.Stem | static/script.js:32 | the sanitised title has the title's length. Only a-z, 0-9 and '_' occur in it. Digits and lowercase letters stay in place, uppercase ASCII letters are lowered, and every other character becomes '_' |
| Client.DownloadName | static/script.js:32 | the file name is exactly `Stem(title)` followed by ".txt", so each of its first characters is the title's character sanitised as Client.Stem states |
| Client.StemIdempotent | static/script.js:32 | sanitising a sanitised title changes nothing |
| Client.DownloadText | static/script.js:21 | the body starts with "URL: " and ends with the summary, and its length is the three fields plus the fixed labels |
| Client.DownloadTextReadsBack | static/script.js:21 | the three fields can be read back out of the body whenever the title label first occurs right after the URL and the summary label first occurs right after the title; titles with line breaks included |
| Client.DownloadTextReadsBackPlain | static/script.js:21 | in particular, any URL without a line break can be read back, with any title inside which no occurrence of the summary label starts |
| Client.ResponseData | static/script.js:62-87 | how the page reads the server's JSON: `summary` is always undefined, because the server's object has no such key; a null title is null; an error body gives the message |
| Client.OnData | static/script.js:62-95 | a truthy `error` is shown as the message, and only then. Otherwise both buttons receive the same URL, title and summary. The title is used when it is a non-empty string, else 'No title'; the summary likewise, else 'No summary available' |
| Client.FetchedView | static/script.js:62-95 | for the server's answer: a JSON response always yields 'No summary available' and the page title, or 'No title' when the title is null or empty. An error with a message is shown, and an error with an empty message is treated as data |
| Client.DeniedView | static/script.js:63-64 | a URL the policy disallows ends with the robots.txt message on the page |

## Left out

- Rendering (`fetch_url_with_js`, Playwright) is a parameter that yields HTML or fails.
- The robots.txt fetch and the parser's `is_allowed` are a parameter that yields allowed, disallowed or an error. How the parser matches rules, including the argument order noted above, is not part of this model.
- `time.sleep(1)` has no observable effect on the result and is omitted.
- BeautifulSoup with lxml is a parameter from HTML to the title, meta tags and anchors.
- readability's `Document(html).summary()` is a parameter that yields text or fails.
- The classifier is a parameter. Its training, TF-IDF features and naive Bayes model are not modelled.
- `urljoin` is a parameter that yields the resolved URL or fails (reference resolution, section 5.2 of RFC 3986).
- Parse.ParseContent: BeautifulSoup and the classifier are modelled as never raising. Any exception they would raise inside the handler's `try` is not modelled.
- JSON encoding and decoding of responses and of the bookmarks file are left out, including key order. The bookmarks file is modelled as absent or holding the list last written. A corrupt file is not modelled.
- The `/` route (app.py:28-30) only renders a static template, so it is left out. Flask routing, `jsonify` and the HTTP layer are left out too. Reading `request.json['url']` happens outside the handler's `try`, so a request without a JSON body or a `url` key is not modelled. The URL is a string in the model. A non-string URL fails at `url.split` inside the `try` and is answered with 400, but that case is not modelled, because its message depends on Python's type names.
- Requests are modelled one at a time. Flask serves them on threads (run.py:6). The load–append–write of `/save` (app.py:55-57) takes no lock, so two concurrent saves can lose a bookmark. Bookmarks.SaveAllAppends holds only for saves handled one after another.
- The robots.txt parser `rp` (app.py:26) is one object shared by all requests. The model gives each request its own policy answer, so interference between concurrent `/fetch` requests through `rp` is not modelled.
- Text.Strip: its own contract states only that the result is no longer than the input. The full characterisation is Text.StripFrames with Text.StripEnds, kept separate so that proofs about link lists need not unfold `strip()`.
- The page script's DOM work, `console` logging, Blob and object-URL handling are left out.
- The HTML rendering of the content display is left out.
- The bookmark list display and `loadBookmarks` are left out.
- The client posts to `/save_bookmark` while the server defines `/save`, and the client checks a `success` field the server never sends. That save path of the page is not modelled. Only the server's `/save` is.
- The Telegram bot, the React page, the Tailwind configuration and `run.py` are left out. They are not part of the service's core.
- Client.Stem: characters are Unicode scalar values. JavaScript replaces per UTF-16 code unit, so a character outside the Basic Multilingual Plane yields two '_' there and one here.
- Client.Stem: `toLowerCase` is modelled only on ASCII. After the replacement, only ASCII letters, digits and '_' remain, so nothing else is affected.
- The page never looks at the HTTP status, only at the body, so the model of the page does not either.

=== FILE: bookmarks.dfy ===
/** The bookmark store behind `/save` and `/bookmarks` (app.py:52-63, 111-119):
    a JSON file that is either absent or holds the list last written. The
    bookmark is whatever JSON the client posted, so its type is a parameter. */
module Bookmarks {
  import opened Wrappers

  const SavedMessage := "Bookmark saved successfully"

  /** `load_bookmarks()`: the stored list, or the empty list when there is no file. */
  function LoadBookmarks<T>(file: Option<seq<T>>): (r: seq<T>)
    ensures file.None? ==> r == []
    ensures file.Some? ==> r == file.value
  {
    match file
    case None => []
    case Some(bookmarks) => bookmarks
  }

  datatype Saved<T> = Saved(file: Option<seq<T>>, message: string)

  /** `save_bookmark()`: load, append the posted bookmark, write the list back. */
  function SaveBookmark<T>(file: Option<seq<T>>, bookmark: T): (r: Saved<T>)
    ensures r.file.Some? && r.message == SavedMessage
    ensures |LoadBookmarks(r.file)| == |LoadBookmarks(file)| + 1
    ensures LoadBookmarks(r.file)[..|LoadBookmarks(file)|] == LoadBookmarks(file)
    ensures LoadBookmarks(r.file)[|LoadBookmarks(file)|] == bookmark
  {
    var bookmarks := LoadBookmarks(file);
    Saved(Some(bookmarks + [bookmark]), SavedMessage)
  }

  /** The file after one `/save` request per bookmark of `posted`, in that order. */
  function SaveAll<T>(file: Option<seq<T>>, posted: seq<T>): Option<seq<T>>
    decreases |posted|
  {
    if posted == [] then file
    else SaveAll(SaveBookmark(file, posted[0]).file, posted[1..])
  }

  /** A run of saves lists the earlier bookmarks first, then the posted ones
      in posting order, none dropped or merged. */
  lemma {:induction false} SaveAllAppends<T>(file: Option<seq<T>>, posted: seq<T>)
    ensures LoadBookmarks(SaveAll(file, posted)) == LoadBookmarks(file) + posted
    decreases |posted|
  {
    if posted != [] {
      var next := SaveBookmark(file, posted[0]).file;
      SaveAllAppends(next, posted[1..]);
      assert LoadBookmarks(next) == LoadBookmarks(file) + [posted[0]];
      assert posted == [posted[0]] + posted[1..];
    }
  }
}

=== FILE: client.dfy ===
/** The page script (static/script.js): what the buttons receive from a
    `/fetch` response, the text of the downloaded file, and its name. */
module Client {
  import opened Wrappers
  import opened Text
  import Fetch
  import Robots

  const NoTitle := "No title"
  const NoSummary := "No summary available"

  // ---------------------------------------------------------------------
  // Download file name (script.js:32)

  predicate IsAsciiLetter(c: char) {
    'a' <= c <= 'z' || 'A' <= c <= 'Z'
  }

  predicate IsAsciiDigit(c: char) {
    '0' <= c <= '9'
  }

  /** The class `[a-z0-9]` under the `i` flag: ASCII letters and digits only. */
  predicate IsAsciiAlnum(c: char) {
    IsAsciiLetter(c) || IsAsciiDigit(c)
  }

  /** The characters a download name's stem is made of. */
  predicate IsStemChar(c: char) {
    'a' <= c <= 'z' || IsAsciiDigit(c) || c == '_'
  }

  function LowerChar(c: char): char {
    if 'A' <= c <= 'Z' then (c as int + 32) as char else c
  }

  /** `s.replace(/[^a-z0-9]/gi, '_')` */
  function ReplaceNonAlnum(s: string): (r: string)
    ensures |r| == |s|
    ensures forall i :: 0 <= i < |s| ==> r[i] == (if IsAsciiAlnum(s[i]) then s[i] else '_')
  {
    if s == [] then []
    else [if IsAsciiAlnum(s[0]) then s[0] else '_'] + ReplaceNonAlnum(s[1..])
  }

  /** `s.toLowerCase()` for ASCII text, the only text it is applied to here. */
  function LowerAscii(s: string): (r: string)
    ensures |r| == |s|
    ensures forall i :: 0 <= i < |s| ==> r[i] == LowerChar(s[i])
  {
    if s == [] then [] else [LowerChar(s[0])] + LowerAscii(s[1..])
  }

  /** `title.replace(/[^a-z0-9]/gi, '_').toLowerCase()`: one character per
      title character; letters lowercased and digits kept, in place; anything else '_'. */
  function Stem(title: string): (stem: string)
    ensures |stem| == |title|
    ensures forall i :: 0 <= i < |stem| ==> IsStemChar(stem[i])
    ensures forall i :: 0 <= i < |title| && IsAsciiDigit(title[i]) ==> stem[i] == title[i]
    ensures forall i :: 0 <= i < |title| && 'a' <= title[i] <= 'z' ==> stem[i] == title[i]
    ensures forall i :: 0 <= i < |title| && 'A' <= title[i] <= 'Z' ==> stem[i] as int == title[i] as int + 32
    ensures forall i :: 0 <= i < |title| && !IsAsciiAlnum(title[i]) ==> stem[i] == '_'
  {
    LowerAscii(ReplaceNonAlnum(title))
  }

  /** The `download` attribute of the temporary link. */
  function DownloadName(title: string): (name: string)
    ensures |name| == |title| + 4
    ensures name[..|title|] == Stem(title)
    ensures name[|title|..] == ".txt"
    ensures forall i :: 0 <= i < |title| ==> IsStemChar(name[i])
  {
    Stem(title) + ".txt"
  }

  /** Sanitising a sanitised stem changes nothing. */
  lemma StemIdempotent(title: string)
    ensures Stem(Stem(title)) == Stem(title)
  {
    var s := Stem(title);
    forall i | 0 <= i < |s|
      ensures Stem(s)[i] == s[i]
    {
      assert IsStemChar(s[i]);
    }
  }

  // ---------------------------------------------------------------------
  // Download body (script.js:21)

  const UrlLabel := "URL: "
  const TitleLabel := "\n\nTitle: "
  const SummaryLabel := "\n\nSummary:\n"

  /** The text of the downloaded file. */
  function DownloadText(url: string, title: string, summary: string): (body: string)
    ensures |body| == |UrlLabel| + |url| + |TitleLabel| + |title| + |SummaryLabel| + |summary|
    ensures body[..|UrlLabel|] == "URL: "
    ensures body[|body| - |summary|..] == summary
  {
    UrlLabel + url + TitleLabel + title + SummaryLabel + summary
  }

  /** A button's `data-url`, `data-title` and `data-summary`. */
  datatype Dataset = Dataset(url: string, title: string, summary: string)

  /** Reads the three fields back out of a download body: the text between
      "URL: " and the first title label, then the text up to the first summary
      label, then the rest. */
  function ReadDownload(body: string): Option<Dataset> {
    if !OccursAt(body, UrlLabel, 0) then None
    else
      var byTitle := SplitOnce(body[|UrlLabel|..], TitleLabel);
      if |byTitle| == 1 then None
      else
        var bySummary := SplitOnce(byTitle[1], SummaryLabel);
        if |bySummary| == 1 then None
        else Some(Dataset(byTitle[0], bySummary[0], bySummary[1]))
  }

  lemma PrefixOf(prefix: string, url: string, tl: string, title: string, sl: string, summary: string)
    ensures var rest := url + tl + title + sl + summary;
            && OccursAt(prefix + url + tl + title + sl + summary, prefix, 0)
            && (prefix + url + tl + title + sl + summary)[|prefix|..] == rest
  {
    var rest := url + tl + title + sl + summary;
    assert prefix + url + tl + title + sl + summary == prefix + rest;
    assert (prefix + rest)[..|prefix|] == prefix;
  }

  /** Splitting `url + tl + title + sl + summary` at the first `tl`, then the
      rest at the first `sl`, gives back the pieces. */
  lemma SplitsBack(url: string, tl: string, title: string, sl: string, summary: string)
    requires tl != "" && sl != ""
    requires FirstAt(url + tl + title + sl + summary, tl, |url|)
    requires FirstAt(title + sl + summary, sl, |title|)
    ensures SplitOnce(url + tl + title + sl + summary, tl) == [url, title + sl + summary]
    ensures SplitOnce(title + sl + summary, sl) == [title, summary]
  {
    var afterTitle := title + sl + summary;
    var afterUrl := url + tl + title + sl + summary;
    assert afterUrl == url + tl + afterTitle;
    SplitOnceJoin(url, tl, afterTitle);
    SplitOnceJoin(title, sl, summary);
  }

  /** The file determines all three fields whenever the title label first
      occurs right after the URL and the summary label first occurs right
      after the title; line breaks in the title are allowed. */
  lemma DownloadTextReadsBack(url: string, title: string, summary: string)
    requires FirstAt(url + TitleLabel + title + SummaryLabel + summary, TitleLabel, |url|)
    requires FirstAt(title + SummaryLabel + summary, SummaryLabel, |title|)
    ensures ReadDownload(DownloadText(url, title, summary)) == Some(Dataset(url, title, summary))
  {
    PrefixOf(UrlLabel, url, TitleLabel, title, SummaryLabel, summary);
    SplitsBack(url, TitleLabel, title, SummaryLabel, summary);
  }

  /** In particular a URL without line breaks can be read back, with any
      title inside which no occurrence of the summary label starts. */
  lemma DownloadTextReadsBackPlain(url: string, title: string, summary: string)
    requires '\n' !in url
    requires FirstAt(title + SummaryLabel + summary, SummaryLabel, |title|)
    ensures ReadDownload(DownloadText(url, title, summary)) == Some(Dataset(url, title, summary))
  {
    var afterTitle := title + SummaryLabel + summary;
    FirstAtAfter(url, TitleLabel, afterTitle);
    assert url + TitleLabel + afterTitle == url + TitleLabel + title + SummaryLabel + summary;
    DownloadTextReadsBack(url, title, summary);
  }

  // ---------------------------------------------------------------------
  // Title and summary fallbacks (script.js:62-95)

  /** A response field as JavaScript sees it. */
  datatype JsValue = Undefined | Null | Str(s: string)

  /** JavaScript truthiness of such a field: a non-empty string. */
  predicate Truthy(v: JsValue) {
    v.Str? && v.s != ""
  }

  /** `v || fallback` */
  function Or(v: JsValue, fallback: string): string {
    if Truthy(v) then v.s else fallback
  }

  /** The fields of the response object the page reads. */
  datatype Data = Data(error: JsValue, title: JsValue, summary: JsValue)

  /** The page after a response: an error shown, or both buttons filled in. */
  datatype View = Failed(message: string) | Ready(save: Dataset, download: Dataset)

  /** The `.then(data => ...)` step of `fetchContent(url)`: a truthy `error`
      is thrown and shown; otherwise each button receives the URL, the title
      or 'No title', and the summary or 'No summary available'. */
  function OnData(url: string, data: Data): (v: View)
    ensures v.Failed? <==> Truthy(data.error)
    ensures v.Failed? ==> v.message == data.error.s
    ensures v.Ready? ==> v.save == v.download && v.save.url == url
    ensures v.Ready? && data.title.Str? && data.title.s != "" ==> v.save.title == data.title.s
    ensures v.Ready? && data.title in {Undefined, Null, Str("")} ==> v.save.title == NoTitle
    ensures v.Ready? && data.summary.Str? && data.summary.s != "" ==> v.save.summary == data.summary.s
    ensures v.Ready? && data.summary in {Undefined, Null, Str("")} ==> v.save.summary == NoSummary
  {
    if Truthy(data.error) then Failed(data.error.s)
    else
      var save := Dataset(url, Or(data.title, NoTitle), Or(data.summary, NoSummary));
      var download := Dataset(url, Or(data.title, NoTitle), Or(data.summary, NoSummary));
      Ready(save, download)
  }

  /** The JSON body of a `/fetch` response, read as the page reads it. The
      server's object has no `summary` key, so `summary` is always undefined. */
  function ResponseData(response: Fetch.Response): (data: Data)
    ensures data.summary == Undefined
    ensures response.Error? ==> data.error == Str(response.message) && data.title == Undefined
    ensures response.Json? ==> data.error == Undefined
    ensures response.Json? && response.content.title.None? ==> data.title == Null
    ensures response.Json? && response.content.title.Some? ==> data.title == Str(response.content.title.value)
  {
    match response
    case Json(parsed) =>
      Data(Undefined, match parsed.title case None => Null case Some(t) => Str(t), Undefined)
    case Error(_, message) => Data(Str(message), Undefined, Undefined)
  }

  /** What the page shows for the handler's answer: a successful fetch always
      fills in 'No summary available' and the page title, or 'No title' when it
      is empty or null; an error with a message is shown as that message. */
  lemma FetchedView(url: string, env: Fetch.Env)
    ensures var response := Fetch.HandleFetch(url, env).response;
            var v := OnData(url, ResponseData(response));
            && (response.Json? ==> v.Ready? && v.save.summary == NoSummary && v.download.summary == NoSummary)
            && (response.Json? && response.content.title.Some? && response.content.title.value != "" ==>
                  v.save.title == response.content.title.value)
            && (response.Json? && response.content.title in {None, Some("")} ==> v.save.title == NoTitle)
            && (response.Error? && response.message != "" ==> v == Failed(response.message))
            && (response.Error? && response.message == "" ==> v == Ready(Dataset(url, NoTitle, NoSummary), Dataset(url, NoTitle, NoSummary)))
  {
  }

  /** The file a denied fetch can never produce: the page shows the policy message instead. */
  lemma DeniedView(url: string, env: Fetch.Env)
    requires Robots.RobotsUrl(url).Ok? && env.policy(Robots.RobotsUrl(url).value, url) == Ok(false)
    ensures OnData(url, ResponseData(Fetch.HandleFetch(url, env).response)) == Failed(Fetch.DeniedMessage)
  {
  }
}

=== FILE: fetch.dfy ===
/** The `/fetch` route (app.py:32-50): derive the policy URL, consult the
    policy, render the page, parse it; every exception becomes a 400
    response carrying its message. The steps the handler takes are
    recorded in a call trace so that their order can be stated. */
module Fetch {
  import opened Wrappers
  import opened Text
  import opened Robots
  import opened Parse

  const DeniedMessage := "Access to this URL is not allowed by robots.txt"

  /** What the handler depends on but cannot see: `rp.fetch(robotsUrl)`
      followed by `rp.is_allowed(url, '*')`, an error being an exception from
      either; the headless-browser render `fetch_url_with_js`; and the
      libraries `parse_content` uses. The policy receives the robots.txt URL
      and the posted URL. The parser's `is_allowed` takes the user agent
      first and the URL second, so the code hands it the posted URL as the
      user-agent name and '*' as the URL to match: the answer is not the
      Robots Exclusion Protocol (RFC 9309) decision for the posted URL's path. */
  datatype Env = Env(
    policy: (string, string) -> Result<bool>,
    render: string -> Result<string>,
    libs: Libraries)

  /** A step with an effect or an opaque cost, in the order the handler takes it. */
  datatype Call =
    | PolicyCheck(robotsUrl: string, userAgent: string)  // `userAgent` is the posted URL, as the code passes it
    | Render(url: string)
    | ParsePage(html: string)

  datatype Response =
    | Json(content: Parsed)
    | Error(status: int, message: string)

  datatype Exchange = Exchange(response: Response, calls: seq<Call>)

  /** `fetch_url()` for the posted `url`. */
  function HandleFetch(url: string, env: Env): (r: Exchange)
    ensures !Contains(url, "//") ==> r == Exchange(Error(400, IndexErrorMessage), [])
    ensures |r.calls| <= 3
    ensures |r.calls| >= 1 ==> RobotsUrl(url).Ok? && r.calls[0] == PolicyCheck(RobotsUrl(url).value, url)
    ensures |r.calls| >= 2 ==> env.policy(RobotsUrl(url).value, url) == Ok(true) && r.calls[1] == Render(url)
    ensures |r.calls| == 3 ==> env.render(url).Ok? && r.calls[2] == ParsePage(env.render(url).value)
    ensures r.response.Error? ==> r.response.status in {400, 403}
    ensures r.response.Error? && r.response.status == 403 <==>
              RobotsUrl(url).Ok? && env.policy(RobotsUrl(url).value, url) == Ok(false)
    ensures r.response.Json? ==> |r.calls| == 3 && r.response.content.url == url
  {
    match RobotsUrl(url)
    case Err(e) => Exchange(Error(400, e), [])
    case Ok(robotsUrl) =>
      var check := PolicyCheck(robotsUrl, url);
      match env.policy(robotsUrl, url)
      case Err(e) => Exchange(Error(400, e), [check])
      case Ok(allowed) =>
        if !allowed then Exchange(Error(403, DeniedMessage), [check])
        else
          match env.render(url)
          case Err(e) => Exchange(Error(400, e), [check, Render(url)])
          case Ok(html) =>
            var calls := [check, Render(url), ParsePage(html)];
            match ParseContent(html, url, env.libs)
            case Err(e) => Exchange(Error(400, e), calls)
            case Ok(parsed) => Exchange(Json(parsed), calls)
  }

  /** A policy that disallows the URL yields the 403 response, and neither the
      render nor the parse takes place. */
  lemma DeniedBeforeFetch(url: string, env: Env)
    requires RobotsUrl(url).Ok? && env.policy(RobotsUrl(url).value, url) == Ok(false)
    ensures HandleFetch(url, env).response == Error(403, DeniedMessage)
    ensures HandleFetch(url, env).calls == [PolicyCheck(RobotsUrl(url).value, url)]
    ensures forall c | c in HandleFetch(url, env).calls :: !c.Render? && !c.ParsePage?
  {
  }

  /** When the policy disallows the URL, what the renderer and the parsing
      libraries would do makes no difference to the exchange. */
  lemma DeniedIgnoresFetch(url: string, env: Env, render: string -> Result<string>, libs: Libraries)
    ensures RobotsUrl(url).Ok? && env.policy(RobotsUrl(url).value, url) == Ok(false) ==>
              HandleFetch(url, env) == HandleFetch(url, Env(env.policy, render, libs))
  {
  }

  /** An allowed, rendered page on which one of the five meta lookups finds a
      tag without a `content` attribute gives the 400 response carrying the
      KeyError's message. */
  lemma MissingContentIsBadRequest(url: string, env: Env, html: string)
    requires RobotsUrl(url).Ok? && env.policy(RobotsUrl(url).value, url) == Ok(true)
    requires env.render(url) == Ok(html) && env.libs.readability(html).Ok?
    requires || MissingContent(env.libs.soup(html).metas, "name", "author")
             || MissingContent(env.libs.soup(html).metas, "name", "description")
             || MissingContent(env.libs.soup(html).metas, "name", "keywords")
             || MissingContent(env.libs.soup(html).metas, "property", "og:title")
             || MissingContent(env.libs.soup(html).metas, "property", "og:description")
    ensures HandleFetch(url, env).response == Error(400, KeyErrorMessage)
  {
    MetadataFails(env.libs.soup(html).metas);
  }

  /** An allowed URL whose page renders and parses is answered with the parsed
      page, after the check, the render and the parse. */
  lemma AllowedFetchAnswers(url: string, env: Env, html: string, page: Parsed)
    ensures RobotsUrl(url).Ok? && env.policy(RobotsUrl(url).value, url) == Ok(true)
            && env.render(url) == Ok(html) && ParseContent(html, url, env.libs) == Ok(page) ==>
              HandleFetch(url, env)
              == Exchange(Json(page), [PolicyCheck(RobotsUrl(url).value, url), Render(url), ParsePage(html)])
  {
  }

  /** A step that raises ends the handler with a 400 response carrying that
      step's message, after exactly the steps taken so far. */
  lemma FailedStepIsBadRequest(url: string, env: Env)
    ensures RobotsUrl(url).Ok? && env.policy(RobotsUrl(url).value, url).Err? ==>
              HandleFetch(url, env)
              == Exchange(Error(400, env.policy(RobotsUrl(url).value, url).error),
                          [PolicyCheck(RobotsUrl(url).value, url)])
    ensures RobotsUrl(url).Ok? && env.policy(RobotsUrl(url).value, url) == Ok(true) && env.render(url).Err? ==>
              HandleFetch(url, env)
              == Exchange(Error(400, env.render(url).error),
                          [PolicyCheck(RobotsUrl(url).value, url), Render(url)])
    ensures RobotsUrl(url).Ok? && env.policy(RobotsUrl(url).value, url) == Ok(true) && env.render(url).Ok?
            && ParseContent(env.render(url).value, url, env.libs).Err? ==>
              HandleFetch(url, env)
              == Exchange(Error(400, ParseContent(env.render(url).value, url, env.libs).error),
                          [PolicyCheck(RobotsUrl(url).value, url), Render(url), ParsePage(env.render(url).value)])
  {
  }

  /** A successful response is the parsed page of the rendered HTML, after the
      check, the render and the parse, in that order. */
  lemma SuccessfulFetch(url: string, env: Env)
    ensures HandleFetch(url, env).response.Json? ==>
              && RobotsUrl(url).Ok? && env.policy(RobotsUrl(url).value, url) == Ok(true)
              && env.render(url).Ok?
              && HandleFetch(url, env).calls
                 == [PolicyCheck(RobotsUrl(url).value, url), Render(url), ParsePage(env.render(url).value)]
              && ParseContent(env.render(url).value, url, env.libs) == Ok(HandleFetch(url, env).response.content)
  {
  }
}

=== FILE: html.dfy ===
/** The parsed page as the server queries it: the `<title>` element, the
    attribute maps of its `<meta>` tags and its `<a>` elements, each in
    document order. Building this from HTML is BeautifulSoup's work and
    is not part of this model. */
module Html {
  import opened Wrappers

  type Attrs = map<string, string>

  /** A `<title>` element; `text` is its `.string`, absent when the element
      does not hold exactly one string. */
  datatype TitleTag = TitleTag(text: Option<string>)

  /** An `<a>` element: its attributes and its `.text` (all descendant text joined). */
  datatype Anchor = Anchor(attrs: Attrs, text: string)

  datatype Document = Document(title: Option<TitleTag>, metas: seq<Attrs>, anchors: seq<Anchor>)

  /** The tag carries attribute `attr` with value `value`. */
  predicate Matches(tag: Attrs, attr: string, value: string) {
    attr in tag && tag[attr] == value
  }

  /** `i` is the first meta tag whose `attr` is `value`. */
  predicate FirstMatch(metas: seq<Attrs>, attr: string, value: string, i: nat) {
    && i < |metas|
    && Matches(metas[i], attr, value)
    && forall j :: 0 <= j < i ==> !Matches(metas[j], attr, value)
  }

  lemma FirstMatchUnique(metas: seq<Attrs>, attr: string, value: string, i: nat, k: nat)
    requires FirstMatch(metas, attr, value, i) && FirstMatch(metas, attr, value, k)
    ensures i == k
  {
  }

  predicate Present(metas: seq<Attrs>, attr: string, value: string) {
    exists i :: 0 <= i < |metas| && Matches(metas[i], attr, value)
  }

  /** `soup.find('meta', {attr: value})`: the index of the first meta tag whose `attr` is `value`. */
  function FindMeta(metas: seq<Attrs>, attr: string, value: string): (r: Option<nat>)
    ensures r.None? <==> !Present(metas, attr, value)
    ensures r.Some? ==> FirstMatch(metas, attr, value, r.value)
  {
    if metas == [] then None
    else if Matches(metas[0], attr, value) then Some(0)
    else match FindMeta(metas[1..], attr, value)
      case None =>
        assert forall j :: 1 <= j < |metas| ==> metas[j] == metas[1..][j - 1];
        None
      case Some(i) => Some(i + 1)
  }
}

=== FILE: parse.dfy ===
/** `parse_content` and `extract_links` (app.py:76-109, 121-127): the JSON
    object the `/fetch` handler returns for a rendered page. */
module Parse {
  import opened Wrappers
  import opened Text
  import opened Html

  /** `str(e)` for the KeyError raised by `tag['content']` on a meta tag without that attribute. */
  const KeyErrorMessage := "'content'"

  /** One entry of `links`: the stripped anchor text and the resolved URL. */
  datatype Link = Link(text: string, url: string)

  /** The object `parse_content` returns; `title` is `None` where Python has `None` (JSON null). */
  datatype Parsed = Parsed(
    title: Option<string>,
    mainContent: string,
    metadata: map<string, string>,
    url: string,
    contentType: string,
    links: seq<Link>)

  /** `requests.compat.urljoin(base, href)` (reference resolution, section 5.2
      of RFC 3986), which raises on a reference it cannot split, such as a
      malformed bracketed host. */
  type Joiner = (string, string) -> Result<string>

  /** The libraries `parse_content` calls, whose code is not part of this model:
      BeautifulSoup with lxml, readability's `Document(html).summary()`
      (which may raise), the trained classifier's `predict`, and `urljoin`. */
  datatype Libraries = Libraries(
    soup: string -> Document,
    readability: string -> Result<string>,
    classify: string -> string,
    urljoin: Joiner)

  /** `soup.title.string if soup.title else ''` */
  function TitleOf(doc: Document): Option<string> {
    match doc.title
    case None => Some("")
    case Some(t) => t.text
  }

  /** Python's `f"{title}"` for a title that may be `None`. */
  function Format(title: Option<string>): string {
    match title
    case None => "None"
    case Some(t) => t
  }

  /** `soup.find('meta', {attr: value})['content'] if soup.find(...) else ...`:
      `None` when no tag matches, the first match's content, or a KeyError. */
  function MetaContent(metas: seq<Attrs>, attr: string, value: string): Result<Option<string>> {
    match FindMeta(metas, attr, value)
    case None => Ok(None)
    case Some(i) => if "content" in metas[i] then Ok(Some(metas[i]["content"])) else Err(KeyErrorMessage)
  }

  /** The first meta tag with `attr` equal to `value` has no `content` attribute. */
  ghost predicate MissingContent(metas: seq<Attrs>, attr: string, value: string) {
    exists i: nat :: FirstMatch(metas, attr, value, i) && "content" !in metas[i]
  }

  /** `md[key]` is the content of the first tag with `attr` equal to `value`, or '' when there is none. */
  ghost predicate Defaulted(md: map<string, string>, key: string, metas: seq<Attrs>, attr: string, value: string) {
    && key in md
    && (!Present(metas, attr, value) ==> md[key] == "")
    && forall i: nat | FirstMatch(metas, attr, value, i) && "content" in metas[i] :: md[key] == metas[i]["content"]
  }

  /** `key` is in `md` exactly when a tag with `attr` equal to `value` exists, holding the first one's content. */
  ghost predicate Optional(md: map<string, string>, key: string, metas: seq<Attrs>, attr: string, value: string) {
    && (key in md <==> Present(metas, attr, value))
    && forall i: nat | FirstMatch(metas, attr, value, i) && "content" in metas[i] && key in md :: md[key] == metas[i]["content"]
  }

  lemma MetaContentSpec(metas: seq<Attrs>, attr: string, value: string)
    ensures MetaContent(metas, attr, value).Err? <==> MissingContent(metas, attr, value)
    ensures MetaContent(metas, attr, value).Ok? && MetaContent(metas, attr, value).value.None? <==> !Present(metas, attr, value)
    ensures forall i: nat | FirstMatch(metas, attr, value, i) && "content" in metas[i] ::
              MetaContent(metas, attr, value) == Ok(Some(metas[i]["content"]))
  {
    match FindMeta(metas, attr, value)
    case None =>
    case Some(k) =>
      forall i: nat | FirstMatch(metas, attr, value, i)
        ensures i == k
      {
        FirstMatchUnique(metas, attr, value, i, k);
      }
  }

  /** The dictionary built from the five looked-up contents: the three fixed
      keys default to '', the Open Graph keys appear only when found. */
  function MetadataMap(author: Option<string>, description: Option<string>, keywords: Option<string>,
                       ogTitle: Option<string>, ogDescription: Option<string>): (md: map<string, string>)
    ensures md.Keys <= {"author", "description", "keywords", "og_title", "og_description"}
    ensures "author" in md && md["author"] == OrEmpty(author)
    ensures "description" in md && md["description"] == OrEmpty(description)
    ensures "keywords" in md && md["keywords"] == OrEmpty(keywords)
    ensures ("og_title" in md <==> ogTitle.Some?) && ("og_title" in md ==> md["og_title"] == ogTitle.value)
    ensures ("og_description" in md <==> ogDescription.Some?) && ("og_description" in md ==> md["og_description"] == ogDescription.value)
  {
    var fixed := map[
      "author" := OrEmpty(author),
      "description" := OrEmpty(description),
      "keywords" := OrEmpty(keywords)];
    var withTitle := if ogTitle.Some? then fixed["og_title" := ogTitle.value] else fixed;
    if ogDescription.Some? then withTitle["og_description" := ogDescription.value] else withTitle
  }

  /** The `metadata` dictionary (app.py:84-96): the three fixed keys, then the
      Open Graph keys when their tags exist. */
  function Metadata(metas: seq<Attrs>): (r: Result<map<string, string>>)
    ensures r.Err? ==> r.error == KeyErrorMessage
    ensures r.Ok? ==> {"author", "description", "keywords"} <= r.value.Keys
    ensures r.Ok? ==> r.value.Keys <= {"author", "description", "keywords", "og_title", "og_description"}
  {
    var author :- MetaContent(metas, "name", "author");
    var description :- MetaContent(metas, "name", "description");
    var keywords :- MetaContent(metas, "name", "keywords");
    var ogTitle :- MetaContent(metas, "property", "og:title");
    var ogDescription :- MetaContent(metas, "property", "og:description");
    Ok(MetadataMap(author, description, keywords, ogTitle, ogDescription))
  }

  /** A meta tag found without a `content` attribute, and only that, makes the lookup raise. */
  lemma MetadataFails(metas: seq<Attrs>)
    ensures Metadata(metas).Err? <==>
      || MissingContent(metas, "name", "author")
      || MissingContent(metas, "name", "description")
      || MissingContent(metas, "name", "keywords")
      || MissingContent(metas, "property", "og:title")
      || MissingContent(metas, "property", "og:description")
  {
    MetaContentSpec(metas, "name", "author");
    MetaContentSpec(metas, "name", "description");
    MetaContentSpec(metas, "name", "keywords");
    MetaContentSpec(metas, "property", "og:title");
    MetaContentSpec(metas, "property", "og:description");
  }

  /** On success the dictionary is built from the five lookups' results. */
  lemma MetadataFields(metas: seq<Attrs>)
    requires Metadata(metas).Ok?
    ensures Metadata(metas).value == MetadataMap(
              MetaContent(metas, "name", "author").value,
              MetaContent(metas, "name", "description").value,
              MetaContent(metas, "name", "keywords").value,
              MetaContent(metas, "property", "og:title").value,
              MetaContent(metas, "property", "og:description").value)
  {
  }

  /** `author`, `description` and `keywords` hold the first matching tag's content, or '' without one. */
  lemma MetadataDefaults(metas: seq<Attrs>)
    requires Metadata(metas).Ok?
    ensures Defaulted(Metadata(metas).value, "author", metas, "name", "author")
    ensures Defaulted(Metadata(metas).value, "description", metas, "name", "description")
    ensures Defaulted(Metadata(metas).value, "keywords", metas, "name", "keywords")
  {
    MetadataFields(metas);
    MetaContentSpec(metas, "name", "author");
    MetaContentSpec(metas, "name", "description");
    MetaContentSpec(metas, "name", "keywords");
  }

  /** `og_title` and `og_description` are present exactly when their property tags exist. */
  lemma MetadataOpenGraph(metas: seq<Attrs>)
    requires Metadata(metas).Ok?
    ensures Optional(Metadata(metas).value, "og_title", metas, "property", "og:title")
    ensures Optional(Metadata(metas).value, "og_description", metas, "property", "og:description")
  {
    MetadataFields(metas);
    MetaContentSpec(metas, "property", "og:title");
    MetaContentSpec(metas, "property", "og:description");
  }

  function OrEmpty(s: Option<string>): string {
    match s
    case None => ""
    case Some(v) => v
  }

  predicate HasHref(a: Anchor) {
    "href" in a.attrs
  }

  /** One pass of the loop: `urljoin(base, a['href'])`, then `a.text.strip()`. */
  function LinkOf(a: Anchor, base: string, urljoin: Joiner): Result<Link>
    requires HasHref(a)
  {
    var url :- urljoin(base, a.attrs["href"]);
    Ok(Link(Strip(a.text), url))
  }

  /** `soup.find_all('a', href=True)`: the anchors that carry an `href`, in document order. */
  function FindAllHref(anchors: seq<Anchor>): (found: seq<Anchor>)
    ensures |found| <= |anchors|
    ensures forall n | 0 <= n < |found| :: HasHref(found[n])
  {
    if anchors == [] then []
    else (if HasHref(anchors[0]) then [anchors[0]] else []) + FindAllHref(anchors[1..])
  }

  /** Entry `n` is the first whose pass of the loop raises. */
  predicate FailsFirstAt(found: seq<Anchor>, base: string, urljoin: Joiner, n: nat)
    requires forall m | 0 <= m < |found| :: HasHref(found[m])
  {
    && n < |found|
    && LinkOf(found[n], base, urljoin).Err?
    && forall m | 0 <= m < n :: LinkOf(found[m], base, urljoin).Ok?
  }

  /** The loop over the anchors found: every pass appends its entry, and the
      first pass that raises ends the loop with that exception. */
  function JoinLinks(found: seq<Anchor>, base: string, urljoin: Joiner): (r: Result<seq<Link>>)
    requires forall n | 0 <= n < |found| :: HasHref(found[n])
    ensures r.Ok? <==> forall n | 0 <= n < |found| :: LinkOf(found[n], base, urljoin).Ok?
    ensures r.Ok? ==> |r.value| == |found|
    ensures r.Ok? ==> forall n | 0 <= n < |found| :: LinkOf(found[n], base, urljoin) == Ok(r.value[n])
    ensures r.Err? ==> forall n: nat | FailsFirstAt(found, base, urljoin, n) :: r.error == LinkOf(found[n], base, urljoin).error
  {
    if found == [] then Ok([])
    else
      var link :- LinkOf(found[0], base, urljoin);
      assert forall n | 1 <= n < |found| :: found[1..][n - 1] == found[n];
      var rest :- JoinLinks(found[1..], base, urljoin);
      Ok([link] + rest)
  }

  /** `extract_links(soup, base)`: on success, one entry per anchor that carries an `href`. */
  function ExtractLinks(anchors: seq<Anchor>, base: string, urljoin: Joiner): (r: Result<seq<Link>>)
    ensures r.Ok? ==> |r.value| == HrefCount(anchors)
  {
    FindAllHrefLength(anchors);
    JoinLinks(FindAllHref(anchors), base, urljoin)
  }

  /** The number of anchors that carry an `href`. */
  function HrefCount(anchors: seq<Anchor>): nat {
    if anchors == [] then 0
    else (if HasHref(anchors[0]) then 1 else 0) + HrefCount(anchors[1..])
  }

  lemma {:induction false} HrefCountAppend(a: seq<Anchor>, b: seq<Anchor>)
    ensures HrefCount(a + b) == HrefCount(a) + HrefCount(b)
  {
    if a == [] {
      assert a + b == b;
    } else {
      assert (a + b)[1..] == a[1..] + b;
      HrefCountAppend(a[1..], b);
    }
  }

  /** How the anchors found in `anchors` relate to those found in its tail. */
  lemma FindAllHrefStep(anchors: seq<Anchor>)
    requires anchors != []
    ensures var c := if HasHref(anchors[0]) then 1 else 0;
            var found := FindAllHref(anchors);
            var rest := FindAllHref(anchors[1..]);
            && |found| == c + |rest|
            && (c == 1 ==> found[0] == anchors[0])
            && forall n | 0 <= n < |rest| :: found[c + n] == rest[n]
  {
    var rest := FindAllHref(anchors[1..]);
    if HasHref(anchors[0]) {
      var found := [anchors[0]] + rest;
      assert FindAllHref(anchors) == found;
      assert forall n | 0 <= n < |rest| :: found[1 + n] == rest[n];
    } else {
      assert FindAllHref(anchors) == rest;
    }
  }

  lemma HrefCountPrefix(anchors: seq<Anchor>, j: nat)
    requires 1 <= j <= |anchors|
    ensures HrefCount(anchors[..j]) == (if HasHref(anchors[0]) then 1 else 0) + HrefCount(anchors[1..][..j - 1])
  {
    assert anchors[..j][1..] == anchors[1..][..j - 1];
  }

  /** As many anchors are found as carry an `href`. */
  lemma {:induction false} FindAllHrefLength(anchors: seq<Anchor>)
    ensures |FindAllHref(anchors)| == HrefCount(anchors)
  {
    if anchors != [] {
      FindAllHrefLength(anchors[1..]);
    }
  }

  /** Anchor `j`, which has an `href`, is found at its rank `HrefCount(anchors[..j])`. */
  lemma {:induction false} FindAllHrefAt(anchors: seq<Anchor>, j: nat)
    requires j < |anchors| && HasHref(anchors[j])
    ensures HrefCount(anchors[..j]) < |FindAllHref(anchors)|
    ensures FindAllHref(anchors)[HrefCount(anchors[..j])] == anchors[j]
  {
    FindAllHrefStep(anchors);
    if j == 0 {
      assert anchors[..0] == [];
    } else {
      var c := if HasHref(anchors[0]) then 1 else 0;
      assert anchors[1..][j - 1] == anchors[j];
      FindAllHrefAt(anchors[1..], j - 1);
      HrefCountPrefix(anchors, j);
      var k := HrefCount(anchors[1..][..j - 1]);
      assert FindAllHref(anchors)[c + k] == FindAllHref(anchors[1..])[k];
    }
  }

  /** Found anchor `n` is an anchor `j` with an `href` whose rank is `n`. */
  lemma {:induction false} FindAllHrefSource(anchors: seq<Anchor>, n: nat) returns (j: nat)
    requires n < |FindAllHref(anchors)|
    ensures j < |anchors| && HasHref(anchors[j]) && HrefCount(anchors[..j]) == n
    ensures FindAllHref(anchors)[n] == anchors[j]
  {
    var c := if HasHref(anchors[0]) then 1 else 0;
    FindAllHrefStep(anchors);
    if n < c {
      assert anchors[..0] == [];
      j := 0;
    } else {
      var j' := FindAllHrefSource(anchors[1..], n - c);
      HrefCountPrefix(anchors, j' + 1);
      j := j' + 1;
    }
  }

  /** On success, one entry per anchor with an `href`, in document order: the
      entry of anchor `j` sits at that anchor's rank and is that anchor's
      stripped text and resolved `href`. */
  lemma ExtractLinksPositions(anchors: seq<Anchor>, base: string, urljoin: Joiner)
    requires ExtractLinks(anchors, base, urljoin).Ok?
    ensures |ExtractLinks(anchors, base, urljoin).value| == HrefCount(anchors)
    ensures forall j | 0 <= j < |anchors| && HasHref(anchors[j]) ::
              && HrefCount(anchors[..j]) < |ExtractLinks(anchors, base, urljoin).value|
              && LinkOf(anchors[j], base, urljoin) == Ok(ExtractLinks(anchors, base, urljoin).value[HrefCount(anchors[..j])])
  {
    FindAllHrefLength(anchors);
    forall j | 0 <= j < |anchors| && HasHref(anchors[j])
      ensures HrefCount(anchors[..j]) < |ExtractLinks(anchors, base, urljoin).value|
      ensures LinkOf(anchors[j], base, urljoin) == Ok(ExtractLinks(anchors, base, urljoin).value[HrefCount(anchors[..j])])
    {
      FindAllHrefAt(anchors, j);
    }
  }

  /** On success, entry `n` comes from the anchor `j` with an `href` whose rank is `n`. */
  lemma ExtractLinksSource(anchors: seq<Anchor>, base: string, urljoin: Joiner, n: nat) returns (j: nat)
    requires ExtractLinks(anchors, base, urljoin).Ok? && n < |ExtractLinks(anchors, base, urljoin).value|
    ensures j < |anchors| && HasHref(anchors[j]) && HrefCount(anchors[..j]) == n
    ensures LinkOf(anchors[j], base, urljoin) == Ok(ExtractLinks(anchors, base, urljoin).value[n])
  {
    j := FindAllHrefSource(anchors, n);
  }

  /** An anchor with an `href` ranks strictly below every later anchor. */
  lemma HrefCountGrows(anchors: seq<Anchor>, i: nat, j: nat)
    requires i < j <= |anchors| && HasHref(anchors[i])
    ensures HrefCount(anchors[..i]) < HrefCount(anchors[..j])
  {
    var front := anchors[..i + 1];
    assert anchors[..j] == front + anchors[i + 1..j];
    HrefCountAppend(front, anchors[i + 1..j]);
    assert front == anchors[..i] + [anchors[i]];
    HrefCountAppend(anchors[..i], [anchors[i]]);
    assert [anchors[i]][1..] == [];
  }

  /** Two equal anchors with an `href` give two equal entries: duplicates are kept. */
  lemma ExtractLinksKeepsDuplicates(anchors: seq<Anchor>, base: string, urljoin: Joiner, i: nat, j: nat)
    requires ExtractLinks(anchors, base, urljoin).Ok?
    requires i < j < |anchors| && HasHref(anchors[i]) && anchors[i] == anchors[j]
    ensures exists p, q :: 0 <= p < q < |ExtractLinks(anchors, base, urljoin).value|
              && LinkOf(anchors[i], base, urljoin) == Ok(ExtractLinks(anchors, base, urljoin).value[p])
              && ExtractLinks(anchors, base, urljoin).value[q] == ExtractLinks(anchors, base, urljoin).value[p]
  {
    FindAllHrefAt(anchors, i);
    FindAllHrefAt(anchors, j);
    HrefCountGrows(anchors, i, j);
    var p := HrefCount(anchors[..i]);
    var q := HrefCount(anchors[..j]);
    var links := ExtractLinks(anchors, base, urljoin).value;
    assert LinkOf(anchors[i], base, urljoin) == Ok(links[p]);
    assert LinkOf(anchors[j], base, urljoin) == Ok(links[q]);
  }

  /** `urljoin` rejects the `href` of anchor `j`. */
  predicate BadHref(anchors: seq<Anchor>, base: string, urljoin: Joiner, j: nat) {
    j < |anchors| && HasHref(anchors[j]) && urljoin(base, anchors[j].attrs["href"]).Err?
  }

  /** Anchor `j` is the first, in document order, whose `href` `urljoin` rejects. */
  predicate FirstBadHref(anchors: seq<Anchor>, base: string, urljoin: Joiner, j: nat) {
    BadHref(anchors, base, urljoin, j) && forall i | 0 <= i < j :: !BadHref(anchors, base, urljoin, i)
  }

  /** The links cannot be built exactly when `urljoin` rejects some anchor's
      `href`, and then the exception is the one raised for the first such anchor. */
  lemma ExtractLinksFails(anchors: seq<Anchor>, base: string, urljoin: Joiner)
    ensures ExtractLinks(anchors, base, urljoin).Err? <==> exists j | 0 <= j < |anchors| :: BadHref(anchors, base, urljoin, j)
    ensures forall j | 0 <= j < |anchors| && FirstBadHref(anchors, base, urljoin, j) ::
              ExtractLinks(anchors, base, urljoin) == Err(urljoin(base, anchors[j].attrs["href"]).error)
  {
    var found := FindAllHref(anchors);
    if ExtractLinks(anchors, base, urljoin).Err? {
      var n :| 0 <= n < |found| && LinkOf(found[n], base, urljoin).Err?;
      var j := FindAllHrefSource(anchors, n);
      assert BadHref(anchors, base, urljoin, j);
    }
    forall j | 0 <= j < |anchors| && BadHref(anchors, base, urljoin, j)
      ensures ExtractLinks(anchors, base, urljoin).Err?
    {
      FindAllHrefAt(anchors, j);
      assert LinkOf(found[HrefCount(anchors[..j])], base, urljoin).Err?;
    }
    forall j | 0 <= j < |anchors| && FirstBadHref(anchors, base, urljoin, j)
      ensures ExtractLinks(anchors, base, urljoin) == Err(urljoin(base, anchors[j].attrs["href"]).error)
    {
      FirstBadHrefRank(anchors, base, urljoin, j);
    }
  }

  /** The first rejected anchor is the first found anchor whose pass raises. */
  lemma FirstBadHrefRank(anchors: seq<Anchor>, base: string, urljoin: Joiner, j: nat)
    requires FirstBadHref(anchors, base, urljoin, j)
    ensures FailsFirstAt(FindAllHref(anchors), base, urljoin, HrefCount(anchors[..j]))
    ensures LinkOf(FindAllHref(anchors)[HrefCount(anchors[..j])], base, urljoin).error
            == urljoin(base, anchors[j].attrs["href"]).error
  {
    var found := FindAllHref(anchors);
    var k := HrefCount(anchors[..j]);
    FindAllHrefAt(anchors, j);
    forall m | 0 <= m < k
      ensures LinkOf(found[m], base, urljoin).Ok?
    {
      var i := FindAllHrefSource(anchors, m);
      if j < i {
        HrefCountGrows(anchors, j, i);
      }
      assert i < j;
      assert !BadHref(anchors, base, urljoin, i);
    }
  }

  /** `parse_content(html, url)` (app.py:76-109). */
  function ParseContent(html: string, url: string, libs: Libraries): (r: Result<Parsed>)
    ensures r.Err? <==>
              || libs.readability(html).Err?
              || Metadata(libs.soup(html).metas).Err?
              || ExtractLinks(libs.soup(html).anchors, url, libs.urljoin).Err?
    ensures r.Err? && libs.readability(html).Err? ==> r.error == libs.readability(html).error
    ensures r.Err? && libs.readability(html).Ok? && Metadata(libs.soup(html).metas).Err? ==> r.error == KeyErrorMessage
    ensures r.Err? && libs.readability(html).Ok? && Metadata(libs.soup(html).metas).Ok? ==>
              r.error == ExtractLinks(libs.soup(html).anchors, url, libs.urljoin).error
    ensures r.Ok? ==> r.value.url == url
    ensures r.Ok? && libs.soup(html).title.None? ==> r.value.title == Some("")
    ensures r.Ok? && libs.soup(html).title.Some? ==> r.value.title == libs.soup(html).title.value.text
    ensures r.Ok? ==> r.value.mainContent == libs.readability(html).value
    ensures r.Ok? ==> r.value.metadata == Metadata(libs.soup(html).metas).value
    ensures r.Ok? ==> r.value.contentType == libs.classify(Format(r.value.title) + " " + r.value.mainContent)
    ensures r.Ok? ==> r.value.links == ExtractLinks(libs.soup(html).anchors, url, libs.urljoin).value
  {
    var doc := libs.soup(html);
    var title := TitleOf(doc);
    var mainContent :- libs.readability(html);
    var metadata :- Metadata(doc.metas);
    var contentType := libs.classify(Format(title) + " " + mainContent);
    var links :- ExtractLinks(doc.anchors, url, libs.urljoin);
    Ok(Parsed(title, mainContent, metadata, url, contentType, links))
  }
}

=== FILE: robots.dfy ===
/** Derivation of the policy-document URL in the `/fetch` handler
    (app.py:37): the text before the first "//", then "//", then the text
    after it up to the next "/", then "/robots.txt". */
module Robots {
  import opened Wrappers
  import opened Text

  /** `str(e)` for the IndexError raised by `[...][1]` on a one-element list. */
  const IndexErrorMessage := "list index out of range"
  const RobotsPath := "/robots.txt"

  /** `xs[k]` on a Python list. */
  function Nth(xs: seq<string>, k: nat): Result<string> {
    if k < |xs| then Ok(xs[k]) else Err(IndexErrorMessage)
  }

  /** The host segment that starts right after the "//" at `i` ends at `k`:
      at the first "/" after it, or at the end of `url` when there is none. */
  predicate AuthorityEnd(url: string, i: nat, k: nat) {
    && i + 2 <= k <= |url|
    && (k == |url| || url[k] == '/')
    && forall m :: i + 2 <= m < k ==> url[m] != '/'
  }

  /** `url.split('//', 1)[0] + '//' + url.split('//', 1)[1].split('/', 1)[0] + '/robots.txt'` */
  function RobotsUrl(url: string): (r: Result<string>)
    ensures r.Err? <==> !Contains(url, "//")
    ensures r.Err? ==> r.error == IndexErrorMessage
    ensures r.Ok? ==> |RobotsPath| <= |r.value| && r.value[|r.value| - |RobotsPath|..] == RobotsPath
  {
    var scheme := SplitOnce(url, "//")[0];
    var rest :- Nth(SplitOnce(url, "//"), 1);
    var host := SplitOnce(rest, "/")[0];
    assert (scheme + "//" + host) + RobotsPath == scheme + "//" + host + RobotsPath;
    Ok(scheme + "//" + host + RobotsPath)
  }

  lemma OccursTwoSlashes(s: string, j: nat)
    ensures OccursAt(s, "//", j) <==> j + 1 < |s| && s[j] == '/' && s[j + 1] == '/'
  {
    if j + 1 < |s| {
      assert s[j..j + 2] == [s[j], s[j + 1]];
    }
  }

  /** Splitting at the first "//" when it is known to sit at `i`. */
  lemma SplitAtFirst(url: string, i: nat)
    requires FirstAt(url, "//", i)
    ensures SplitOnce(url, "//") == [url[..i], url[i + 2..]]
  {
    var parts := SplitOnce(url, "//");
    assert Contains(url, "//");
    assert |parts[0]| == i by {
      if |parts[0]| < i {
        assert false;
      } else if i < |parts[0]| {
        assert false;
      }
    }
    assert url == parts[0] + "//" + parts[1];
    assert parts[0] == url[..i];
  }

  /** The first piece of `rest.split('/', 1)` is the text before the first '/' (at `h`, or the end). */
  lemma HostPiece(rest: string, h: nat)
    requires h <= |rest| && (h == |rest| || rest[h] == '/')
    requires forall m :: 0 <= m < h ==> rest[m] != '/'
    ensures SplitOnce(rest, "/")[0] == rest[..h]
  {
    var pieces := SplitOnce(rest, "/");
    if |pieces| == 1 {
      if h < |rest| {
        OccursOneChar(rest, '/', h);
        assert false;
      }
    } else {
      var p := |pieces[0]|;
      assert rest == pieces[0] + "/" + pieces[1];
      OccursOneChar(rest, '/', p);
      if h < p {
        OccursOneChar(rest, '/', h);
        assert false;
      }
      assert p == h;
    }
  }

  /** Every input whose first "//" is at `i` and whose host segment ends at
      `k` yields exactly its scheme part, "//", that host and "/robots.txt". */
  lemma RobotsUrlShape(url: string, i: nat, k: nat)
    requires FirstAt(url, "//", i)
    requires AuthorityEnd(url, i, k)
    ensures RobotsUrl(url) == Ok(url[..i] + "//" + url[i + 2..k] + RobotsPath)
    ensures forall m :: i + 2 <= m < k ==> url[m] != '/'
  {
    SplitAtFirst(url, i);
    HostSegment(url, i, k);
    RobotsUrlOfSplits(url, url[..i], url[i + 2..], url[i + 2..k]);
  }

  /** After the "//" at `i`, `split('/', 1)` keeps the host segment, which ends at `k`. */
  lemma HostSegment(url: string, i: nat, k: nat)
    requires AuthorityEnd(url, i, k)
    ensures SplitOnce(url[i + 2..], "/")[0] == url[i + 2..k]
  {
    var rest := url[i + 2..];
    forall m | 0 <= m < k - i - 2
      ensures rest[m] != '/'
    {
      assert rest[m] == url[i + 2 + m];
    }
    HostPiece(rest, k - i - 2);
    assert rest[..k - i - 2] == url[i + 2..k];
  }

  /** The derived URL, read off the two splits it is built from. */
  lemma RobotsUrlOfSplits(url: string, scheme: string, rest: string, host: string)
    requires SplitOnce(url, "//") == [scheme, rest]
    requires SplitOnce(rest, "/")[0] == host
    ensures RobotsUrl(url) == Ok(scheme + "//" + host + RobotsPath)
  {
  }

  /** The first "//" of `url` and the end of the host segment after it. */
  lemma AuthorityOf(url: string) returns (i: nat, k: nat)
    requires Contains(url, "//")
    ensures FirstAt(url, "//", i) && AuthorityEnd(url, i, k)
  {
    var f := FindFrom(url, "//", 0);
    i := f.value;
    OccursTwoSlashes(url, i);
    match FindFrom(url, "/", i + 2)
    case None =>
      k := |url|;
      forall m | i + 2 <= m < k
        ensures url[m] != '/'
      {
        OccursOneChar(url, '/', m);
      }
    case Some(p) =>
      k := p;
      OccursOneChar(url, '/', p);
      forall m | i + 2 <= m < k
        ensures url[m] != '/'
      {
        OccursOneChar(url, '/', m);
      }
  }

  /** Appending a host and "/robots.txt" after the first "//" keeps it the
      first, and the host segment then ends where "/robots.txt" starts. */
  lemma DerivedAuthority(url: string, i: nat, host: string)
    requires FirstAt(url, "//", i)
    requires '/' !in host
    ensures FirstAt(url[..i] + "//" + host + RobotsPath, "//", i)
    ensures AuthorityEnd(url[..i] + "//" + host + RobotsPath, i, i + 2 + |host|)
  {
    var o := url[..i] + "//" + host + RobotsPath;
    OccursTwoSlashes(url, i);
    OccursTwoSlashes(o, i);
    forall j: nat | j < i
      ensures !OccursAt(o, "//", j)
    {
      OccursTwoSlashes(o, j);
      OccursTwoSlashes(url, j);
    }
    forall m | i + 2 <= m < i + 2 + |host|
      ensures o[m] != '/'
    {
      assert o[m] == host[m - i - 2];
    }
    assert o[i + 2 + |host|] == '/';
  }

  /** Deriving the policy URL from a derived policy URL changes nothing. */
  lemma RobotsUrlFixpoint(url: string)
    requires RobotsUrl(url).Ok?
    ensures RobotsUrl(RobotsUrl(url).value) == RobotsUrl(url)
  {
    var i, k := AuthorityOf(url);
    RobotsUrlShape(url, i, k);
    var host := url[i + 2..k];
    var o := url[..i] + "//" + host + RobotsPath;
    var k' := i + 2 + |host|;
    assert o[..i] == url[..i];
    assert o[i + 2..k'] == host;
    DerivedAuthority(url, i, host);
    RobotsUrlShape(o, i, k');
  }

  lemma SchemeHostAuthority(scheme: string, host: string, path: string)
    requires '/' !in scheme && '/' !in host
    requires path == [] || path[0] == '/'
    ensures FirstAt(scheme + "//" + host + path, "//", |scheme|)
    ensures AuthorityEnd(scheme + "//" + host + path, |scheme|, |scheme| + 2 + |host|)
  {
    var url := scheme + "//" + host + path;
    var i := |scheme|;
    forall j: nat | j < i
      ensures !OccursAt(url, "//", j)
    {
      OccursTwoSlashes(url, j);
      assert url[j] == scheme[j];
    }
    OccursTwoSlashes(url, i);
    forall m | i + 2 <= m < i + 2 + |host|
      ensures url[m] != '/'
    {
      assert url[m] == host[m - i - 2];
    }
  }

  /** A URL made of a slash-free scheme, "//", a slash-free host and a path
      that is empty or starts with "/" has its policy document at the root of that host. */
  lemma RobotsUrlOfParts(scheme: string, host: string, path: string)
    requires '/' !in scheme && '/' !in host
    requires path == [] || path[0] == '/'
    ensures RobotsUrl(scheme + "//" + host + path) == Ok(scheme + "//" + host + RobotsPath)
  {
    var url := scheme + "//" + host + path;
    var i := |scheme|;
    var k := i + 2 + |host|;
    assert url[..i] == scheme;
    assert url[i + 2..k] == host;
    SchemeHostAuthority(scheme, host, path);
    RobotsUrlShape(url, i, k);
  }

  /** "https://example.com/private/x" has its policy at "https://example.com/robots.txt". */
  lemma RobotsUrlExample()
    ensures RobotsUrl("https:" + "//" + "example.com" + "/private/x") == Ok("https:" + "//" + "example.com" + "/robots.txt")
  {
    RobotsUrlOfParts("https:", "example.com", "/private/x");
  }
}

=== FILE: text.dfy ===
/** The Python string primitives the server relies on: `str.split(sep, 1)`
    and `str.strip()`, with a first-occurrence search that `split` is built on. */
module Text {
  import opened Wrappers

  /** `pat` occurs in `s` starting at index `i`. */
  predicate OccursAt(s: string, pat: string, i: nat) {
    i + |pat| <= |s| && s[i..i + |pat|] == pat
  }

  predicate Contains(s: string, pat: string) {
    exists i: nat :: i <= |s| && OccursAt(s, pat, i)
  }

  /** `i` is the first occurrence of `pat` in `s`. */
  predicate FirstAt(s: string, pat: string, i: nat) {
    OccursAt(s, pat, i) && forall j: nat :: j < i ==> !OccursAt(s, pat, j)
  }

  /** Index of the first occurrence of `pat` at or after `from`. */
  function FindFrom(s: string, pat: string, from: nat): (r: Option<nat>)
    decreases |s| + 1 - from
    ensures r.Some? ==> from <= r.value && OccursAt(s, pat, r.value)
    ensures r.Some? ==> forall j: nat :: from <= j < r.value ==> !OccursAt(s, pat, j)
    ensures r.None? <==> forall j: nat :: from <= j ==> !OccursAt(s, pat, j)
  {
    if |s| < from then None
    else if OccursAt(s, pat, from) then Some(from)
    else FindFrom(s, pat, from + 1)
  }

  lemma OccursOneChar(s: string, c: char, j: nat)
    ensures OccursAt(s, [c], j) <==> j < |s| && s[j] == c
  {
    if j < |s| {
      assert s[j..j + 1] == [s[j]];
    }
  }

  /** `s.split(sep, 1)`: one piece when `sep` does not occur, otherwise the
      text before its first occurrence and the text after it. */
  function SplitOnce(s: string, sep: string): (parts: seq<string>)
    requires sep != ""
    ensures 1 <= |parts| <= 2
    ensures |parts| == 1 <==> !Contains(s, sep)
    ensures |parts| == 1 ==> parts[0] == s
    ensures |parts| == 2 ==> s == parts[0] + sep + parts[1] && FirstAt(s, sep, |parts[0]|)
  {
    match FindFrom(s, sep, 0)
    case None => [s]
    case Some(i) =>
      assert s == s[..i] + sep + s[i + |sep|..];
      [s[..i], s[i + |sep|..]]
  }

  /** Where `sep` first occurs is where `split(sep, 1)` cuts. */
  lemma SplitOnceAt(s: string, sep: string, i: nat)
    requires sep != "" && FirstAt(s, sep, i)
    ensures SplitOnce(s, sep) == [s[..i], s[i + |sep|..]]
  {
    var parts := SplitOnce(s, sep);
    assert Contains(s, sep);
    assert |parts[0]| == i;
    assert s == parts[0] + sep + parts[1];
    assert parts[0] == s[..i];
  }

  /** Splitting `a + sep + b` at a first occurrence of `sep` right after `a` gives `a` and `b`. */
  lemma SplitOnceJoin(a: string, sep: string, b: string)
    requires sep != "" && FirstAt(a + sep + b, sep, |a|)
    ensures SplitOnce(a + sep + b, sep) == [a, b]
  {
    var s := a + sep + b;
    SplitOnceAt(s, sep, |a|);
    assert s[..|a|] == a;
    assert s[|a| + |sep|..] == b;
  }

  /** A pattern whose first character does not occur in `pre` first occurs right after `pre`. */
  lemma FirstAtAfter(pre: string, pat: string, post: string)
    requires pat != [] && pat[0] !in pre
    ensures FirstAt(pre + pat + post, pat, |pre|)
  {
    var s := pre + pat + post;
    assert s[|pre|..|pre| + |pat|] == pat;
    forall j: nat | j < |pre|
      ensures !OccursAt(s, pat, j)
    {
      assert s[j..j + |pat|][0] == s[j] == pre[j];
    }
  }

  /** Python's `str.isspace()` for one character. */
  predicate IsSpace(c: char) {
    || c == ' '
    || '\t' <= c <= '\r'
    || '\U{1C}' <= c <= '\U{1F}'
    || c == '\U{85}' || c == '\U{A0}' || c == '\U{1680}'
    || '\U{2000}' <= c <= '\U{200A}'
    || c == '\U{2028}' || c == '\U{2029}' || c == '\U{202F}' || c == '\U{205F}' || c == '\U{3000}'
  }

  /** `s` is `r` surrounded by whitespace only, `lo` characters of it in front. */
  predicate Framed(s: string, r: string, lo: nat) {
    && lo + |r| <= |s|
    && s[lo..lo + |r|] == r
    && (forall k :: 0 <= k < lo ==> IsSpace(s[k]))
    && (forall k :: lo + |r| <= k < |s| ==> IsSpace(s[k]))
  }

  /** `s.strip()`: whitespace removed from both ends. */
  function Strip(s: string): (r: string)
    ensures |r| <= |s|
  {
    if s != [] && IsSpace(s[0]) then Strip(s[1..])
    else if s != [] && IsSpace(s[|s| - 1]) then Strip(s[..|s| - 1])
    else s
  }

  /** `s.strip()` drops every leading and trailing whitespace character and
      nothing else: what is left starts and ends with a non-space, and `s`
      is that text framed by whitespace, `lo` characters of it in front. */
  lemma {:induction false} StripFrames(s: string) returns (lo: nat)
    ensures Framed(s, Strip(s), lo)
    ensures Strip(s) != [] ==> !IsSpace(Strip(s)[0]) && !IsSpace(Strip(s)[|Strip(s)| - 1])
  {
    StripEnds(s);
    var r := Strip(s);
    if s != [] && IsSpace(s[0]) {
      var lo' := StripFrames(s[1..]);
      FramedFront(s, r, lo');
      lo := lo' + 1;
    } else if s != [] && IsSpace(s[|s| - 1]) {
      lo := StripFrames(s[..|s| - 1]);
      FramedBack(s, r, lo);
    } else {
      lo := 0;
      assert s[0..|s|] == s;
    }
  }

  /** What `s.strip()` leaves neither starts nor ends with whitespace. */
  lemma {:induction false} StripEnds(s: string)
    ensures var r := Strip(s); r != [] ==> !IsSpace(r[0]) && !IsSpace(r[|r| - 1])
  {
    if s != [] && IsSpace(s[0]) {
      StripEnds(s[1..]);
    } else if s != [] && IsSpace(s[|s| - 1]) {
      StripEnds(s[..|s| - 1]);
    }
  }

  /** Whitespace in front of a framed text keeps it framed. */
  lemma FramedFront(s: string, r: string, lo: nat)
    requires s != [] && IsSpace(s[0]) && Framed(s[1..], r, lo)
    ensures Framed(s, r, lo + 1)
  {
    assert s[lo + 1..lo + 1 + |r|] == s[1..][lo..lo + |r|];
    assert forall k :: 1 <= k < |s| ==> s[k] == s[1..][k - 1];
  }

  /** Whitespace behind a framed text keeps it framed. */
  lemma FramedBack(s: string, r: string, lo: nat)
    requires s != [] && IsSpace(s[|s| - 1]) && Framed(s[..|s| - 1], r, lo)
    ensures Framed(s, r, lo)
  {
    assert s[lo..lo + |r|] == s[..|s| - 1][lo..lo + |r|];
    assert forall k :: 0 <= k < |s| - 1 ==> s[k] == s[..|s| - 1][k];
  }
}

=== FILE: wrappers.dfy ===
/** Failure-compatible wrappers used throughout the model.
    A Python exception that escapes a step is carried as `Err(str(e))`,
    the text the handler later puts into its error response. */
module Wrappers {

  datatype Option<+T> = None | Some(value: T)

  datatype Result<+T> = Ok(value: T) | Err(error: string) {

    predicate IsFailure() {
      Err?
    }

    function PropagateFailure<U>(): Result<U>
      requires Err?
    {
      Err(error)
    }

    function Extract(): T
      requires Ok?
    {
      value
    }
  }
}
